=== FILE: README.md ===
# rent-calc in Dafny

rent-calc splits one utility bill among the tenants of a shared house, in
proportion to the number of days each of them lived there during the billing
period. The program loads the tenant list and uses a hard-coded period (Oct 20
to Nov 19, 2018) and bill total ($72.28). For each tenant it does the
following:

- It skips the tenant if they moved out before the period began.
- It clips their residence to the period.
- It counts the days of the clipped interval, both ends included.

Each tenant's share is their days over the total days. Their amount due is
the bill total times that share. Finally the program checks that the amounts
add up to the bill total and the shares to one.

This project models that core:

- `sums.dfy` (module `Sums`): sums over maps keyed by tenant id. Go visits a
  map in no fixed order, so each sum takes its next key arbitrarily. Lemmas
  show that the result does not depend on which key comes first.
- `tenancy.dfy` (module `Tenancy`): the tenant record and `isCurrent`. Also
  the bill line computed for one tenant, exactly as written (`BillFor`), and
  the map of all lines (`ExpectedBills`). Lemmas relate each line to the days
  the tenant actually shared with the period. There is also a corrected line
  (`OverlapBill`) that bills only the tenants who share a day with the
  period; see Findings.
- `billing.dfy` (module `Billing`): the `bill` record as a class whose fields
  are updated in place. It holds three loops:
  - `findBillableTennantDays`, as an imperative method over an unordered map.
  - The share loop of `main`.
  - `verifyBillCalculations`.

  `CalculateBill` is the run of `main` up to printing. It proves that, over
  exact reals, verification fails exactly when the total day count is zero.
  Otherwise every bill holds its days over the total as its share and the
  bill total times that share as its amount.
- `scenarios.dfy` (module `Scenarios`): worked examples for the configured
  period.

Dates are whole days: every date is parsed at midnight UTC with no time of
day. A date is its day number counted from January 1 of year 1, the instant
Go's zero `time.Time` stands for. A tenant with no move-out date therefore
has move-out day 0. `Before` is a strict `<` on day numbers. The
hours-over-24 day count is the exact difference of day numbers.

## Model

| member | source | states |
|---|---|---|
| Tenancy.CurrentMeansStillResident | rent_calc.go:32-35 | a tenant with a move-out date stops being resident after it, and a tenant without one stays resident from move-in on; what makes a tenant current is stated by `Tenancy.TenantFromRecord` |
| Tenancy.MovedOutBefore | rent_calc.go:115-118 | a tenant skipped for having moved out before the period lives in the house on no day from the period start on |
| Tenancy.BillFor | rent_calc.go:115-133 | a tenant gets no line exactly when skipped; otherwise the line starts at the later of the period start and the move-in, ends at the earlier of the period end and, for a tenant who moved out, the move-out, and counts end − start + 1 days, whether or not that is positive |
| Tenancy.TenantFromRecord | rent_calc.go:77-81 | a record with an empty move-out field, or one that parses to the zero date, gives a current tenant, and every other move-out date is kept |
| Tenancy.BillForIsOverlap | rent_calc.go:114-130 | a skipped tenant shares no day with the period, and a billed tenant's line covers exactly the days they lived there within the period |
| Tenancy.BillForCountsDays | rent_calc.go:132-133 | a non-negative day count is the number of days the tenant shared with the period, and a count of zero or less means they shared none |
| Tenancy.WholePeriodTenant | rent_calc.go:120-133 | a tenant resident throughout is billed from period start to period end for every day of it |
| Tenancy.CurrentTenantBilledToPeriodEnd | rent_calc.go:115-130 | a tenant who has not moved out is never skipped and is billed up to the period end |
| Tenancy.ExpectedBillsKeys | rent_calc.go:114-139 | the result map holds exactly the tenants who did not move out before the period began |
| Tenancy.ExpectedBillsInsert | rent_calc.go:114-139 | visiting one more tenant adds that tenant's line, if any, and changes no other line |
| Tenancy.SkippedTenantAddsNothing | rent_calc.go:115-118 | a tenant who moved out before the period adds no entry and no days to the total |
| Tenancy.SumDaysInsert | rent_calc.go:141 | adding a line adds its day count to the total, whatever the visiting order |
| Sums.SumIntsRemove | rent_calc.go:114-142 | the total of the day counts is the same whichever tenant is visited first |
| Sums.SumRealsRemove | rent_calc.go:151-154 | the totals of amounts and shares are the same whichever bill is visited first |
| Tenancy.OverlapBill | rent_calc.go:120-133 | corrected line: absent exactly when the tenant shares no day with the period, otherwise covering exactly the shared days, with a count of at least one equal to their number |
| Tenancy.BillForAgreesWithOverlap | rent_calc.go:115-133 | where the tenant shares a day with the period the line as written is the corrected one; otherwise it is absent or counts zero or fewer days |
| Tenancy.ExpectedBillsAgreeWithOverlap | rent_calc.go:114-139 | the map as written equals the corrected map exactly when every line as written counts at least one day |
| Tenancy.OverlapBillsWithinTotal | rent_calc.go:133-141 | every corrected line counts at least one day and no more than the total |
| Billing.Bill.constructor | rent_calc.go:135-139 | a new bill holds the clipped interval and day count, with share and amount still zero |
| Billing.AddBill | rent_calc.go:135-139 | storing a new bill record under a new id keeps each tenant's record its own and adds exactly that record's line |
| Billing.FindBillableTenantDays | rent_calc.go:110-145 | returns one new, distinct bill per tenant not skipped, keyed by tenant id, whose lines are exactly `ExpectedBills`, with share and amount still zero, and the total of their day counts |
| Billing.ApportionBill | rent_calc.go:179-182 | with a non-zero total, every bill's share becomes its days over the total and its amount the bill total times that share, intervals and days unchanged; a zero total is reported and changes nothing |
| Billing.SharesReconcile | rent_calc.go:156-161 | over exact reals, when the total is the sum of the day counts and not zero, the shares add up to one and the amounts to the bill total |
| Billing.SharesSumToOne | rent_calc.go:159-161 | over exact reals the shares of the lines add up to one |
| Billing.CorrectedShareBounded | rent_calc.go:179-181 | with the corrected lines every billed tenant's share lies in (0, 1] |
| Billing.VerifyBillCalculations | rent_calc.go:148-161 | passes exactly when the amounts add up to the bill total and the shares to one, summed in any order |
| Billing.CalculateBill | rent_calc.go:164-184 | the bills are distinct and hold exactly the expected lines; the run gets past verification exactly when the total day count is not zero, and then every bill's share is its days over the total, its amount the bill total times that share, and the bills reconcile |
| Scenarios.OneTenantWholePeriod | rent_calc.go:13-19 | in the configured 31-day period a sole tenant resident throughout is billed 31 days, share 1, amount 72.28 |
| Scenarios.TwoTenantsWholePeriod | rent_calc.go:179-182 | two tenants resident throughout each get 31 days, share 0.5 and amount 36.14 |
| Scenarios.MovedOutDuringPeriod | rent_calc.go:126-133 | moving out on Nov 5 ends the bill on Nov 5, 17 days |
| Scenarios.MovedInDuringPeriod | rent_calc.go:120-133 | moving in on Oct 25 starts the bill on Oct 25, 26 days |
| Scenarios.MovedOutBeforePeriod | rent_calc.go:115-118 | a tenant who left on Oct 1 has no bill, and alone gives a total of zero |
| Scenarios.FutureTenantBilledNegativeDays | rent_calc.go:120-141 | a tenant moving in on Nov 25 is billed -5 days; beside a resident tenant the total is 26, the resident's share exceeds one and the newcomer's is negative |
| Scenarios.CancellingTotal | rent_calc.go:133-141 | a tenant billed 5 days beside one moving in on Nov 25 gives a total of zero, so the bill cannot be apportioned although real days were billed; the corrected lines keep the 5 days |

## Left out

- Loading the tenant file (`loadTennants`, rent_calc.go:44-97) is file I/O and CSV and integer parsing. The model takes the resulting map as input. A repeated id in the file overwrites the earlier record (line 93). A map input covers that. The requirement `KeyedById` states the loader's guarantee that every tenant is stored under its own id.
- Date parsing and formatting (`DATE_FORMAT`, `time.Parse`, `Format`) are not modelled. Dates are day numbers, as described above.
- `time.Duration` saturates at about 292 years, so the program's day count would be wrong for intervals longer than that. Day counts here are exact integers.
- Printing the bills (rent_calc.go:186-197) and `BILL_TYPE` are not modelled. The name, email, phone, room and roommate fields are not modelled either, since they are only loaded and printed.
- `checkErr` and every panic are not modelled. Where `CalculateBill` returns `ok == false` (a zero total), the program panics.
- Billing.CalculateBill: `ok` is computed over exact reals, so it is false only on a zero total. The float64 program can also panic with a non-zero total. For example, with six tenants resident throughout, their float64 shares add up to 0.9999999999999999.
- Billing.ApportionBill: shares and amounts are exact reals, not float64. So rounding is not modelled: neither the amounts' sum missing 72.28 by a rounding error nor the exact `!=` comparisons that would then panic. A zero total, where the program divides by zero into NaN or infinity and verification then panics, is reported as `ok == false`.
- Billing.SharesReconcile: proved over exact reals. The float64 sums the program compares can differ from the exact ones in the last bits.
- Billing.VerifyBillCalculations: compares exact real sums, not float64 sums accumulated in visiting order.

## Findings

| source | as written | input that shows it | evidently intended | confidence | as-written member | corrected member |
|---|---|---|---|---|---|---|
| rent_calc.go:115-133 | only tenants who moved out before the period are skipped. A tenant who moves in after the period ends, or whose move-in date follows their move-out date, is billed end − start + 1 ≤ 0 days. That lowers the total and pushes the other shares above one, while verification still passes | period Oct 20 – Nov 19, 2018, tenant 1 resident throughout, tenant 6 moving in Nov 25, 2018: tenant 6 gets −5 days, the total is 26, tenant 1's share is 31/26 | bill only tenants who share at least one day with the period, each for exactly the shared days | not executed | Scenarios.FutureTenantBilledNegativeDays | Tenancy.OverlapBill |

`FindBillableTenantDays` and `CalculateBill` follow the program as written.
`Tenancy.ExpectedBillsAgreeWithOverlap` states exactly when they agree with
the corrected lines. `Billing.CorrectedShareBounded` proves the intended
bound on each share for the corrected lines.

=== FILE: billing.dfy ===
/**
 The bill records of rent_calc.go and the two loops that fill them in:
 `findBillableTennantDays`, which creates one record per billed tenant and
 totals the days, and the loop in `main` that sets each record's share and
 amount in place. Shares and amounts are exact reals here, an idealisation of
 the program's float64 arithmetic.
 */
module Billing {
  import opened Sums
  import opened Tenancy

  /** BILL_START, Oct 20, 2018, as a day number. */
  const BillStart: Date := 736986
  /** BILL_END, Nov 19, 2018, as a day number. */
  const BillEnd: Date := 737016
  /** BILL_TOTAL, in dollars. */
  const BillTotal: real := 72.28

  /** One tenant's bill, created by the calculator and completed in place by
      the share step. */
  class Bill {
    var startDate: Date
    var endDate: Date
    var tenantDays: int
    var tenantShare: real
    var amountDue: real

    constructor (startDate: Date, endDate: Date, tenantDays: int)
      ensures this.startDate == startDate && this.endDate == endDate && this.tenantDays == tenantDays
      ensures tenantShare == 0.0 && amountDue == 0.0
    {
      this.startDate := startDate;
      this.endDate := endDate;
      this.tenantDays := tenantDays;
      tenantShare := 0.0;
      amountDue := 0.0;
    }
  }

  /** Every tenant has a bill record of its own. */
  ghost predicate Distinct(billMap: map<int, Bill>)
  {
    forall i, j :: i in billMap && j in billMap && i != j ==> billMap[i] != billMap[j]
  }

  /** The interval and day count of every bill. */
  ghost function LinesOf(billMap: map<int, Bill>): map<int, Line>
    reads billMap.Values
  {
    map id | id in billMap :: Line(billMap[id].startDate, billMap[id].endDate, billMap[id].tenantDays)
  }

  /** Adding a bill record not yet in the map keeps every tenant's record its
      own and adds that record's line. */
  lemma AddBill(billMap: map<int, Bill>, id: int, bill: Bill)
    requires Distinct(billMap) && id !in billMap
    requires forall j :: j in billMap ==> billMap[j] != bill
    requires Unapportioned(billMap) && bill.tenantShare == 0.0 && bill.amountDue == 0.0
    ensures Distinct(billMap[id := bill])
    ensures Unapportioned(billMap[id := bill])
    ensures LinesOf(billMap[id := bill]) == LinesOf(billMap)[id := Line(bill.startDate, bill.endDate, bill.tenantDays)]
  {
    var m := billMap[id := bill];
    assert LinesOf(m).Keys == LinesOf(billMap)[id := Line(bill.startDate, bill.endDate, bill.tenantDays)].Keys;
  }

  /** No bill has been given a share or an amount yet. */
  ghost predicate Unapportioned(billMap: map<int, Bill>)
    reads billMap.Values
  {
    forall id :: id in billMap ==> billMap[id].tenantShare == 0.0 && billMap[id].amountDue == 0.0
  }

  /** The share of every bill. */
  ghost function SharesOf(billMap: map<int, Bill>): map<int, real>
    reads billMap.Values
  {
    map id | id in billMap :: billMap[id].tenantShare
  }

  /** The amount due on every bill. */
  ghost function AmountsOf(billMap: map<int, Bill>): map<int, real>
    reads billMap.Values
  {
    map id | id in billMap :: billMap[id].amountDue
  }

  /** `findBillableTennantDays`: one new bill per tenant not skipped, keyed by
      tenant id and holding the tenant's clipped interval, and the total of
      their day counts. The tenants are visited in no particular order. */
  method FindBillableTenantDays(tenants: map<int, Tenant>, billPeriodStart: Date, billPeriodEnd: Date)
    returns (billMap: map<int, Bill>, totalTenantDays: int)
    requires KeyedById(tenants)
    ensures forall id :: id in billMap ==> fresh(billMap[id])
    ensures fresh(billMap.Values)
    ensures Distinct(billMap)
    ensures LinesOf(billMap) == ExpectedBills(tenants, billPeriodStart, billPeriodEnd)
    ensures totalTenantDays == SumDays(LinesOf(billMap))
    ensures Unapportioned(billMap)
  {
    billMap := map[];
    totalTenantDays := 0;
    var remaining := tenants.Keys;
    while remaining != {}
      invariant remaining <= tenants.Keys
      invariant forall id :: id in billMap ==> fresh(billMap[id])
      invariant Distinct(billMap)
      invariant LinesOf(billMap) == ExpectedBills(tenants - remaining, billPeriodStart, billPeriodEnd)
      invariant totalTenantDays == SumDays(LinesOf(billMap))
      invariant Unapportioned(billMap)
      decreases remaining
    {
      HasElement(remaining);
      var key :| key in remaining;
      var tenant := tenants[key];
      ghost var before := tenants - remaining;
      remaining := remaining - {key};
      assert tenants - remaining == before[key := tenant];
      ExpectedBillsInsert(before, key, tenant, billPeriodStart, billPeriodEnd);

      // skip tenants that have moved out before the billing period starts
      if !IsCurrent(tenant) && tenant.moveOutDate < billPeriodStart {
        continue;
      }

      var tenantBillStartDate := billPeriodStart;
      if billPeriodStart < tenant.moveInDate {
        tenantBillStartDate := tenant.moveInDate;
      }

      var tenantBillEndDate := billPeriodEnd;
      if !IsCurrent(tenant) && tenant.moveOutDate < billPeriodEnd {
        tenantBillEndDate := tenant.moveOutDate;
      }

      var tenantDays := tenantBillEndDate - tenantBillStartDate + 1;

      ghost var lines := LinesOf(billMap);
      var bill := new Bill(tenantBillStartDate, tenantBillEndDate, tenantDays);
      assert lines == LinesOf(billMap);
      ExpectedBillsKeys(before, billPeriodStart, billPeriodEnd, key);
      assert key !in LinesOf(billMap);
      forall j | j in billMap ensures billMap[j] != bill { }
      AddBill(billMap, key, bill);
      billMap := billMap[tenant.id := bill];
      SumDaysInsert(lines, key, Line(tenantBillStartDate, tenantBillEndDate, tenantDays));

      totalTenantDays := totalTenantDays + tenantDays;
    }
    assert tenants - remaining == tenants;
    forall b | b in billMap.Values ensures fresh(b) {
      ValueKey(billMap, b);
      var j :| j in billMap && billMap[j] == b;
    }
  }

  /** The share of each line: its days over the total. */
  function Shares(lines: map<int, Line>, totalTenantDays: int): map<int, real>
    requires totalTenantDays != 0
  {
    map id | id in lines :: lines[id].tenantDays as real / totalTenantDays as real
  }

  /** The amount due on each line: the bill total times its share. */
  function Amounts(lines: map<int, Line>, totalTenantDays: int): map<int, real>
    requires totalTenantDays != 0
  {
    map id | id in lines :: BillTotal * (lines[id].tenantDays as real / totalTenantDays as real)
  }

  /** The condition `verifyBillCalculations` checks: the amounts add up to the
      bill total and the shares to one. */
  ghost predicate Reconciles(billMap: map<int, Bill>)
    reads billMap.Values
  {
    SumReals(AmountsOf(billMap)) == BillTotal && SumReals(SharesOf(billMap)) == 1.0
  }

  /** The loop in `main` that completes every bill: share := days / total and
      amount := BILL_TOTAL * share, in no particular order. A zero total would
      make every share NaN or infinite in the program, after which
      verification fails; here it is reported as `ok == false` and no bill
      changes. */
  method ApportionBill(billMap: map<int, Bill>, totalTenantDays: int) returns (ok: bool)
    requires Distinct(billMap)
    modifies billMap.Values
    ensures ok <==> totalTenantDays != 0
    ensures LinesOf(billMap) == old(LinesOf(billMap))
    ensures ok ==> SharesOf(billMap) == Shares(LinesOf(billMap), totalTenantDays)
    ensures ok ==> AmountsOf(billMap) == Amounts(LinesOf(billMap), totalTenantDays)
    ensures !ok ==> SharesOf(billMap) == old(SharesOf(billMap)) && AmountsOf(billMap) == old(AmountsOf(billMap))
  {
    if totalTenantDays == 0 {
      return false;
    }
    var remaining := billMap.Keys;
    while remaining != {}
      invariant remaining <= billMap.Keys
      invariant LinesOf(billMap) == old(LinesOf(billMap))
      invariant forall id :: id in billMap && id !in remaining ==>
        billMap[id].tenantShare == billMap[id].tenantDays as real / totalTenantDays as real &&
        billMap[id].amountDue == BillTotal * billMap[id].tenantShare
      decreases remaining
    {
      HasElement(remaining);
      var id :| id in remaining;
      var bill := billMap[id];
      bill.tenantShare := bill.tenantDays as real / totalTenantDays as real;
      bill.amountDue := BillTotal * bill.tenantShare;
      remaining := remaining - {id};
    }
    forall id | id in billMap
      ensures SharesOf(billMap)[id] == Shares(LinesOf(billMap), totalTenantDays)[id]
      ensures AmountsOf(billMap)[id] == Amounts(LinesOf(billMap), totalTenantDays)[id]
    {
    }
    assert SharesOf(billMap) == Shares(LinesOf(billMap), totalTenantDays);
    assert AmountsOf(billMap) == Amounts(LinesOf(billMap), totalTenantDays);
    return true;
  }

  /** Over exact reals the shares always add up to one and the amounts to the
      bill total, whenever the total is the sum of the days and not zero. */
  lemma SharesReconcile(lines: map<int, Line>, totalTenantDays: int)
    requires totalTenantDays == SumDays(lines) && totalTenantDays != 0
    ensures SumReals(Shares(lines, totalTenantDays)) == 1.0
    ensures SumReals(Amounts(lines, totalTenantDays)) == BillTotal
  {
    SharesSumToOne(lines, totalTenantDays);
    var shares := Shares(lines, totalTenantDays);
    forall id | id in shares ensures Amounts(lines, totalTenantDays)[id] == Times(BillTotal, shares[id]) {
    }
    assert Amounts(lines, totalTenantDays) == Scale(shares, BillTotal);
    SumRealsScale(shares, BillTotal);
  }

  lemma SharesSumToOne(lines: map<int, Line>, totalTenantDays: int)
    requires totalTenantDays == SumDays(lines) && totalTenantDays != 0
    ensures SumReals(Shares(lines, totalTenantDays)) == 1.0
  {
    var total := totalTenantDays as real;
    SharesScaleDays(lines, totalTenantDays);
    SumRealsScale(AsReals(DaysOf(lines)), 1.0 / total);
    SumIntsAsReals(DaysOf(lines));
    TimesInverse(total);
  }

  /** Each share is its day count scaled by one over the total. */
  lemma SharesScaleDays(lines: map<int, Line>, totalTenantDays: int)
    requires totalTenantDays != 0
    ensures Shares(lines, totalTenantDays) == Scale(AsReals(DaysOf(lines)), 1.0 / totalTenantDays as real)
  {
    var total := totalTenantDays as real;
    var days := AsReals(DaysOf(lines));
    var shares := Shares(lines, totalTenantDays);
    forall id | id in shares ensures shares[id] == Times(1.0 / total, days[id]) {
      OverTotal(days[id], total);
    }
  }

  lemma OverTotal(x: real, total: real)
    requires total != 0.0
    ensures x / total == Times(1.0 / total, x)
  {
  }

  lemma TimesInverse(total: real)
    requires total != 0.0
    ensures Times(1.0 / total, total) == 1.0
  {
  }

  /** With the corrected lines every billed tenant owes a positive share of
      at most the whole bill, which the lines as written do not guarantee. */
  lemma CorrectedShareBounded(tenants: map<int, Tenant>, periodStart: Date, periodEnd: Date, id: int)
    requires id in OverlapBills(tenants, periodStart, periodEnd)
    ensures SumDays(OverlapBills(tenants, periodStart, periodEnd)) >= 1
    ensures var lines := OverlapBills(tenants, periodStart, periodEnd);
      0.0 < Shares(lines, SumDays(lines))[id] <= 1.0
  {
    var lines := OverlapBills(tenants, periodStart, periodEnd);
    OverlapBillsWithinTotal(tenants, periodStart, periodEnd, id);
    FractionBounded(lines[id].tenantDays as real, SumDays(lines) as real);
  }

  lemma FractionBounded(x: real, total: real)
    requires 0.0 < x <= total
    ensures 0.0 < x / total <= 1.0
  {
  }

  /** `verifyBillCalculations`: total the amounts and the shares, in no
      particular order, and compare them with the bill total and with one.
      The sums here are exact, so this can pass where the program's float64
      sums miss a target in the last bits and it panics. */
  method VerifyBillCalculations(billMap: map<int, Bill>) returns (verified: bool)
    ensures verified <==> Reconciles(billMap)
  {
    var totalAmountDue := 0.0;
    var totalTenantShares := 0.0;
    ghost var amounts: map<int, real> := map[];
    ghost var shares: map<int, real> := map[];
    var remaining := billMap.Keys;
    while remaining != {}
      invariant remaining <= billMap.Keys
      invariant amounts == map id | id in billMap && id !in remaining :: billMap[id].amountDue
      invariant shares == map id | id in billMap && id !in remaining :: billMap[id].tenantShare
      invariant totalAmountDue == SumReals(amounts)
      invariant totalTenantShares == SumReals(shares)
      decreases remaining
    {
      HasElement(remaining);
      var id :| id in remaining;
      var bill := billMap[id];
      SumRealsInsert(amounts, id, bill.amountDue);
      SumRealsInsert(shares, id, bill.tenantShare);
      totalAmountDue := totalAmountDue + bill.amountDue;
      totalTenantShares := totalTenantShares + bill.tenantShare;
      amounts := amounts[id := bill.amountDue];
      shares := shares[id := bill.tenantShare];
      remaining := remaining - {id};
    }
    assert amounts == AmountsOf(billMap);
    assert shares == SharesOf(billMap);
    verified := totalAmountDue == BillTotal && totalTenantShares == 1.0;
  }

  /** The run of `main` up to printing: bill the tenants for the fixed billing
      period, complete the bills and verify them. Over exact reals `ok` is
      false exactly when the total day count is zero, and the program then
      panics; with a non-zero total every bill holds the share and amount
      `main` prints. */
  method CalculateBill(tenants: map<int, Tenant>) returns (billMap: map<int, Bill>, ok: bool)
    requires KeyedById(tenants)
    ensures Distinct(billMap)
    ensures LinesOf(billMap) == ExpectedBills(tenants, BillStart, BillEnd)
    ensures ok <==> SumDays(ExpectedBills(tenants, BillStart, BillEnd)) != 0
    ensures ok ==> SharesOf(billMap) == Shares(LinesOf(billMap), SumDays(LinesOf(billMap)))
    ensures ok ==> AmountsOf(billMap) == Amounts(LinesOf(billMap), SumDays(LinesOf(billMap)))
    ensures ok ==> Reconciles(billMap)
  {
    var totalTenantDays;
    billMap, totalTenantDays := FindBillableTenantDays(tenants, BillStart, BillEnd);
    var apportioned := ApportionBill(billMap, totalTenantDays);
    ok := false;
    if apportioned {
      SharesReconcile(LinesOf(billMap), totalTenantDays);
      ok := VerifyBillCalculations(billMap);
    }
  }
}

=== FILE: scenarios.dfy ===
/**
 Worked examples for the billing period the program is configured with,
 Oct 20 to Nov 19, 2018, dates written as day numbers.
 */
module Scenarios {
  import opened Sums
  import opened Tenancy
  import opened Billing

  const Sep1: Date := 736937
  const Oct1: Date := 736967
  const Oct25: Date := 736991
  const Oct24: Date := 736990
  const Nov5: Date := 737002
  const Nov25: Date := 737022

  /** The configured period holds 31 days, so a tenant there throughout is
      billed for all 31 and, alone, owes the whole bill. */
  lemma OneTenantWholePeriod()
    ensures var tenants := map[1 := Tenant(1, Sep1, ZeroDate)];
      var lines := ExpectedBills(tenants, BillStart, BillEnd);
      && lines == map[1 := Line(BillStart, BillEnd, 31)]
      && SumDays(lines) == 31
      && Shares(lines, 31) == map[1 := 1.0]
      && Amounts(lines, 31) == map[1 := 72.28]
  {
    var tenants := map[1 := Tenant(1, Sep1, ZeroDate)];
    var lines := ExpectedBills(tenants, BillStart, BillEnd);
    assert lines == map[1 := Line(BillStart, BillEnd, 31)];
    SumIntsRemove(DaysOf(lines), 1);
    assert DaysOf(lines) - {1} == map[];
  }

  /** Two tenants there throughout split the bill evenly. */
  lemma TwoTenantsWholePeriod()
    ensures var tenants := map[1 := Tenant(1, Sep1, ZeroDate), 2 := Tenant(2, BillStart, ZeroDate)];
      var lines := ExpectedBills(tenants, BillStart, BillEnd);
      && lines == map[1 := Line(BillStart, BillEnd, 31), 2 := Line(BillStart, BillEnd, 31)]
      && SumDays(lines) == 62
      && Shares(lines, 62) == map[1 := 0.5, 2 := 0.5]
      && Amounts(lines, 62) == map[1 := 36.14, 2 := 36.14]
  {
    var tenants := map[1 := Tenant(1, Sep1, ZeroDate), 2 := Tenant(2, BillStart, ZeroDate)];
    var lines := ExpectedBills(tenants, BillStart, BillEnd);
    assert lines == map[1 := Line(BillStart, BillEnd, 31), 2 := Line(BillStart, BillEnd, 31)];
    SumIntsRemove(DaysOf(lines), 1);
    SumIntsRemove(DaysOf(lines) - {1}, 2);
    assert DaysOf(lines) - {1} - {2} == map[];
  }

  /** Moving out on Nov 5 ends the bill on Nov 5: 17 days. */
  lemma MovedOutDuringPeriod()
    ensures BillFor(Tenant(3, Sep1, Nov5), BillStart, BillEnd) == Some(Line(BillStart, Nov5, 17))
  {
  }

  /** Moving in on Oct 25 starts the bill on Oct 25: 26 days. */
  lemma MovedInDuringPeriod()
    ensures BillFor(Tenant(4, Oct25, ZeroDate), BillStart, BillEnd) == Some(Line(Oct25, BillEnd, 26))
  {
  }

  /** A tenant who left on Oct 1 gets no bill and no days; if nobody else is
      billed the total is zero and the bill cannot be apportioned. */
  lemma MovedOutBeforePeriod()
    ensures BillFor(Tenant(5, Sep1, Oct1), BillStart, BillEnd) == None
    ensures ExpectedBills(map[5 := Tenant(5, Sep1, Oct1)], BillStart, BillEnd) == map[]
    ensures SumDays(ExpectedBills(map[5 := Tenant(5, Sep1, Oct1)], BillStart, BillEnd)) == 0
  {
    assert ExpectedBills(map[5 := Tenant(5, Sep1, Oct1)], BillStart, BillEnd) == map[];
    assert DaysOf(map[]) == map[];
  }

  /** The calculator as written bills a tenant who moves in after the period
      ends, Nov 25, for -5 days, where that tenant shares no day with the
      period; with one other tenant there throughout, the total drops from 31
      to 26 and the resident's share rises above one. */
  lemma FutureTenantBilledNegativeDays()
    ensures BillFor(Tenant(6, Nov25, ZeroDate), BillStart, BillEnd) == Some(Line(Nov25, BillEnd, -5))
    ensures OverlapBill(Tenant(6, Nov25, ZeroDate), BillStart, BillEnd) == None
    ensures var tenants := map[1 := Tenant(1, Sep1, ZeroDate), 6 := Tenant(6, Nov25, ZeroDate)];
      var lines := ExpectedBills(tenants, BillStart, BillEnd);
      && SumDays(lines) == 26
      && Shares(lines, 26)[1] > 1.0
      && Shares(lines, 26)[6] < 0.0
      && OverlapBills(tenants, BillStart, BillEnd) == map[1 := Line(BillStart, BillEnd, 31)]
  {
    var future := Tenant(6, Nov25, ZeroDate);
    assert !(Nov25 in OverlapDays(future, BillStart, BillEnd));
    assert OverlapDays(future, BillStart, BillEnd) == {};
    var tenants := map[1 := Tenant(1, Sep1, ZeroDate), 6 := future];
    var lines := ExpectedBills(tenants, BillStart, BillEnd);
    assert lines == map[1 := Line(BillStart, BillEnd, 31), 6 := Line(Nov25, BillEnd, -5)];
    SumIntsRemove(DaysOf(lines), 1);
    SumIntsRemove(DaysOf(lines) - {1}, 6);
    assert DaysOf(lines) - {1} - {6} == map[];
    var resident := Tenant(1, Sep1, ZeroDate);
    assert BillStart in OverlapDays(resident, BillStart, BillEnd);
    assert OverlapBill(resident, BillStart, BillEnd) == Some(Line(BillStart, BillEnd, 31));
    assert OverlapBills(tenants, BillStart, BillEnd) == map[1 := Line(BillStart, BillEnd, 31)];
  }

  /** A tenant billed 5 real days beside one moving in on Nov 25 gives a total
      of zero, so the bill cannot be apportioned although days were billed;
      the corrected lines keep the 5 days. */
  lemma CancellingTotal()
    ensures var tenants := map[1 := Tenant(1, Sep1, Oct24), 6 := Tenant(6, Nov25, ZeroDate)];
      && SumDays(ExpectedBills(tenants, BillStart, BillEnd)) == 0
      && OverlapBills(tenants, BillStart, BillEnd) == map[1 := Line(BillStart, Oct24, 5)]
  {
    var tenants := map[1 := Tenant(1, Sep1, Oct24), 6 := Tenant(6, Nov25, ZeroDate)];
    var lines := ExpectedBills(tenants, BillStart, BillEnd);
    assert lines == map[1 := Line(BillStart, Oct24, 5), 6 := Line(Nov25, BillEnd, -5)];
    SumIntsRemove(DaysOf(lines), 1);
    SumIntsRemove(DaysOf(lines) - {1}, 6);
    assert DaysOf(lines) - {1} - {6} == map[];
    var future := Tenant(6, Nov25, ZeroDate);
    assert !(Nov25 in OverlapDays(future, BillStart, BillEnd));
    assert OverlapDays(future, BillStart, BillEnd) == {};
    var leaver := Tenant(1, Sep1, Oct24);
    assert BillStart in OverlapDays(leaver, BillStart, BillEnd);
    assert OverlapBill(leaver, BillStart, BillEnd) == Some(Line(BillStart, Oct24, 5));
    assert OverlapBills(tenants, BillStart, BillEnd) == map[1 := Line(BillStart, Oct24, 5)];
  }
}

=== FILE: sums.dfy ===
/**
 Sums over maps keyed by tenant id. Go ranges over a map in no fixed order, so
 these sums pick their next key arbitrarily; the Remove lemmas show that the
 result does not depend on which key is taken first.
 */
module Sums {

  /** The sum of the values of `m`, taken in no particular order. */
  ghost function SumInts(m: map<int, int>): int
    decreases |m|
  {
    if m == map[] then 0
    else
      HasKey(m);
      var k :| k in m;
      m[k] + SumInts(m - {k})
  }

  /** The sum of the values of `m`, taken in no particular order. */
  ghost function SumReals(m: map<int, real>): real
    decreases |m|
  {
    if m == map[] then 0.0
    else
      HasKey(m);
      var k :| k in m;
      m[k] + SumReals(m - {k})
  }

  // HasKey, HasElement and ValueKey are not model content: they only supply
  // the witness that lets a `:|` choice or a membership proof go through.

  /** A non-empty map has a key. */
  lemma HasKey<V>(m: map<int, V>)
    requires m != map[]
    ensures exists k :: k in m
  {
    if forall k :: k !in m { assert false; }
  }

  /** A non-empty set has an element. */
  lemma HasElement(s: set<int>)
    requires s != {}
    ensures exists x :: x in s
  {
    if forall x :: x !in s { assert false; }
  }

  /** Every value of a map is stored under some key. */
  lemma ValueKey<V>(m: map<int, V>, v: V)
    requires v in m.Values
    ensures exists k :: k in m && m[k] == v
  {
    if forall k :: k in m ==> m[k] != v { assert false; }
  }

  lemma RemoveShrinks<V>(m: map<int, V>, k: int)
    requires k in m
    ensures |m - {k}| == |m| - 1
  {
    assert (m - {k}).Keys == m.Keys - {k};
  }

  /** Any entry may be taken out of the sum first. */
  lemma {:induction false} SumIntsRemove(m: map<int, int>, k: int)
    requires k in m
    ensures SumInts(m) == m[k] + SumInts(m - {k})
    decreases |m|
  {
    var j :| j in m && SumInts(m) == m[j] + SumInts(m - {j});
    if j != k {
      RemoveShrinks(m, j);
      RemoveShrinks(m, k);
      SumIntsRemove(m - {j}, k);
      SumIntsRemove(m - {k}, j);
      assert m - {j} - {k} == m - {k} - {j};
    }
  }

  /** Any entry may be taken out of the sum first. */
  lemma {:induction false} SumRealsRemove(m: map<int, real>, k: int)
    requires k in m
    ensures SumReals(m) == m[k] + SumReals(m - {k})
    decreases |m|
  {
    var j :| j in m && SumReals(m) == m[j] + SumReals(m - {j});
    if j != k {
      RemoveShrinks(m, j);
      RemoveShrinks(m, k);
      SumRealsRemove(m - {j}, k);
      SumRealsRemove(m - {k}, j);
      assert m - {j} - {k} == m - {k} - {j};
    }
  }

  /** Adding a new entry adds its value to the sum, whatever the iteration order. */
  lemma SumIntsInsert(m: map<int, int>, k: int, v: int)
    requires k !in m
    ensures SumInts(m[k := v]) == v + SumInts(m)
  {
    SumIntsRemove(m[k := v], k);
    assert m[k := v] - {k} == m;
  }

  /** Adding a new entry adds its value to the sum, whatever the iteration order. */
  lemma SumRealsInsert(m: map<int, real>, k: int, v: real)
    requires k !in m
    ensures SumReals(m[k := v]) == v + SumReals(m)
  {
    SumRealsRemove(m[k := v], k);
    assert m[k := v] - {k} == m;
  }

  /** The product `c * x`, kept behind a name so that proofs about sums can
      treat products as terms and use distributivity explicitly. */
  function Times(c: real, x: real): real
  {
    c * x
  }

  lemma TimesDistributes(c: real, x: real, y: real)
    ensures Times(c, x + y) == Times(c, x) + Times(c, y)
  {
  }

  /** Every value of `m` multiplied by `c`. */
  function Scale(m: map<int, real>, c: real): map<int, real>
  {
    map k | k in m :: Times(c, m[k])
  }

  /** The integer values of `m` as reals. */
  function AsReals(m: map<int, int>): map<int, real>
  {
    map k | k in m :: m[k] as real
  }

  /** Scaling every value scales the sum. */
  lemma {:induction false} SumRealsScale(m: map<int, real>, c: real)
    ensures SumReals(Scale(m, c)) == Times(c, SumReals(m))
    decreases |m|
  {
    if m != map[] {
      HasKey(m);
      var k :| k in m;
      RemoveShrinks(m, k);
      SumRealsRemove(m, k);
      SumRealsRemove(Scale(m, c), k);
      ScaleRemove(m, c, k);
      assert SumReals(Scale(m, c)) == Times(c, m[k]) + SumReals(Scale(m - {k}, c));
      SumRealsScale(m - {k}, c);
      TimesDistributes(c, m[k], SumReals(m - {k}));
    } else {
      assert Scale(m, c) == map[];
    }
  }

  lemma ScaleRemove(m: map<int, real>, c: real, k: int)
    requires k in m
    ensures k in Scale(m, c) && Scale(m, c)[k] == Times(c, m[k])
    ensures Scale(m, c) - {k} == Scale(m - {k}, c)
  {
    var l, r := Scale(m, c) - {k}, Scale(m - {k}, c);
    assert l.Keys == r.Keys;
    forall j | j in l ensures l[j] == r[j] { }
  }

  /** Summing integers and converting commutes with converting and summing. */
  lemma {:induction false} SumIntsAsReals(m: map<int, int>)
    ensures SumReals(AsReals(m)) == SumInts(m) as real
    decreases |m|
  {
    if m != map[] {
      HasKey(m);
      var k :| k in m;
      RemoveShrinks(m, k);
      SumIntsRemove(m, k);
      SumRealsRemove(AsReals(m), k);
      assert AsReals(m) - {k} == AsReals(m - {k});
      SumIntsAsReals(m - {k});
    } else {
      assert AsReals(m) == map[];
    }
  }

  /** With no negative values, every value is at most the sum. */
  lemma {:induction false} SumIntsBoundsEntry(m: map<int, int>, k: int)
    requires forall j :: j in m ==> m[j] >= 0
    requires k in m
    ensures 0 <= m[k] <= SumInts(m)
  {
    SumIntsRemove(m, k);
    SumIntsNonNegative(m - {k});
  }

  lemma {:induction false} SumIntsNonNegative(m: map<int, int>)
    requires forall j :: j in m ==> m[j] >= 0
    ensures SumInts(m) >= 0
    decreases |m|
  {
    if m != map[] {
      HasKey(m);
      var k :| k in m;
      RemoveShrinks(m, k);
      SumIntsRemove(m, k);
      SumIntsNonNegative(m - {k});
    }
  }
}

=== FILE: tenancy.dfy ===
/**
 Tenants and the billable interval of one tenant within a billing period
 (rent_calc.go). Dates are whole days: the program parses every date at
 midnight UTC with no time of day, so a date is modelled by its day number.
 */
module Tenancy {
  import opened Sums

  datatype Option<T> = None | Some(value: T)

  /** A calendar date as the number of days since January 1 of year 1, the
      instant Go's zero `time.Time` stands for; day 0 is therefore the zero date. */
  type Date = int

  const ZeroDate: Date := 0

  /** The fields of a tenant record that the bill depends on. A move-out date
      equal to ZeroDate means the tenant has not moved out. */
  datatype Tenant = Tenant(id: int, moveInDate: Date, moveOutDate: Date)

  /** The part of a bill the calculator fills in: the tenant's billed interval,
      both ends inclusive, and its length in days. */
  datatype Line = Line(startDate: Date, endDate: Date, tenantDays: int)

  /** `isCurrent`: the tenant still lives in the house. */
  predicate IsCurrent(t: Tenant)
  {
    t.moveOutDate == ZeroDate
  }

  /** The tenant a record with the given id, move-in date and optional
      move-out date becomes; an empty move-out field leaves the zero date. */
  function TenantFromRecord(id: int, moveIn: Date, moveOut: Option<Date>): (t: Tenant)
    ensures t.id == id && t.moveInDate == moveIn
    ensures IsCurrent(t) <==> moveOut == None || moveOut == Some(ZeroDate)
    ensures !IsCurrent(t) ==> moveOut == Some(t.moveOutDate)
  {
    match moveOut
    case None => Tenant(id, moveIn, ZeroDate)
    case Some(d) => Tenant(id, moveIn, d)
  }

  /** The tenant moved out before the billing period began and is not billed:
      they live in the house on no day from the period's start on. */
  predicate MovedOutBefore(t: Tenant, periodStart: Date): (skipped: bool)
    ensures skipped ==> forall d :: periodStart <= d ==> !Resident(t, d)
  {
    !IsCurrent(t) && t.moveOutDate < periodStart
  }

  /** The bill line `findBillableTennantDays` computes for one tenant, exactly as
      written: None for a skipped tenant, otherwise the clipped interval and
      its inclusive day count. */
  function BillFor(t: Tenant, periodStart: Date, periodEnd: Date): (r: Option<Line>)
    ensures r.None? <==> MovedOutBefore(t, periodStart)
    ensures r.Some? ==> periodStart <= r.value.startDate && r.value.endDate <= periodEnd
    ensures r.Some? ==> r.value.startDate == periodStart || r.value.startDate == t.moveInDate
    ensures r.Some? ==> r.value.endDate == periodEnd || (!IsCurrent(t) && r.value.endDate == t.moveOutDate)
    ensures r.Some? ==> t.moveInDate <= r.value.startDate
    ensures r.Some? && !IsCurrent(t) ==> r.value.endDate <= t.moveOutDate
    ensures r.Some? ==> r.value.tenantDays == r.value.endDate - r.value.startDate + 1
  {
    if MovedOutBefore(t, periodStart) then None
    else
      var start := if periodStart < t.moveInDate then t.moveInDate else periodStart;
      var end := if !IsCurrent(t) && t.moveOutDate < periodEnd then t.moveOutDate else periodEnd;
      Some(Line(start, end, end - start + 1))
  }

  /** A tenant with a move-out date stops being resident after it, and only
      such a tenant does. `Resident` is defined through `IsCurrent`, so this
      is a consistency check rather than an independent characterisation;
      what makes a tenant current is stated by `TenantFromRecord`. */
  lemma CurrentMeansStillResident(t: Tenant)
    ensures IsCurrent(t) <==> forall d :: t.moveInDate <= d ==> Resident(t, d)
  {
    if !IsCurrent(t) {
      var d := if t.moveInDate <= t.moveOutDate then t.moveOutDate + 1 else t.moveInDate;
      assert t.moveInDate <= d && !Resident(t, d);
    }
  }

  /** The tenant lived in the house on day `d`, move-in and move-out days included. */
  predicate Resident(t: Tenant, d: Date)
  {
    t.moveInDate <= d && (IsCurrent(t) || d <= t.moveOutDate)
  }

  /** Day `d` lies on the line's billed interval. */
  predicate Covers(l: Line, d: Date)
  {
    l.startDate <= d <= l.endDate
  }

  /** The days from `first` to `last`, both included. */
  ghost function DaysFrom(first: Date, last: Date): set<Date>
    decreases last - first
  {
    if last < first then {} else DaysFrom(first, last - 1) + {last}
  }

  lemma {:induction false} DaysFromMembers(first: Date, last: Date)
    ensures forall d :: d in DaysFrom(first, last) <==> first <= d <= last
    decreases last - first
  {
    if first <= last {
      DaysFromMembers(first, last - 1);
    }
  }

  /** The days of the billing period on which the tenant lived in the house. */
  ghost function OverlapDays(t: Tenant, periodStart: Date, periodEnd: Date): set<Date>
  {
    set d | periodStart <= d <= periodEnd && Resident(t, d)
  }

  /** An interval of whole days holds one more day than its end minus its start. */
  lemma {:induction false} DaysFromSize(first: Date, last: Date)
    requires first <= last + 1
    ensures |DaysFrom(first, last)| == last - first + 1
    decreases last - first
  {
    if first <= last {
      DaysFromSize(first, last - 1);
      DaysFromMembers(first, last - 1);
    }
  }

  /** The line for a tenant is the intersection of their residence with the
      billing period: a skipped tenant has no day in common with the period,
      and a billed tenant's line covers exactly the days they were resident
      within the period. */
  lemma BillForIsOverlap(t: Tenant, periodStart: Date, periodEnd: Date)
    ensures BillFor(t, periodStart, periodEnd).None? ==> OverlapDays(t, periodStart, periodEnd) == {}
    ensures BillFor(t, periodStart, periodEnd).Some? ==>
      forall d :: Covers(BillFor(t, periodStart, periodEnd).value, d) <==> d in OverlapDays(t, periodStart, periodEnd)
  {
  }

  /** A line's day count is the number of days it covers, whenever that count
      is not negative; a negative count comes only from an empty overlap. */
  lemma BillForCountsDays(t: Tenant, periodStart: Date, periodEnd: Date)
    requires BillFor(t, periodStart, periodEnd).Some?
    ensures var l := BillFor(t, periodStart, periodEnd).value;
      l.tenantDays >= 0 ==> l.tenantDays == |OverlapDays(t, periodStart, periodEnd)|
    ensures var l := BillFor(t, periodStart, periodEnd).value;
      l.tenantDays <= 0 ==> OverlapDays(t, periodStart, periodEnd) == {}
  {
    var l := BillFor(t, periodStart, periodEnd).value;
    BillForIsOverlap(t, periodStart, periodEnd);
    DaysFromMembers(l.startDate, l.endDate);
    assert OverlapDays(t, periodStart, periodEnd) == DaysFrom(l.startDate, l.endDate);
    if l.tenantDays >= 0 {
      DaysFromSize(l.startDate, l.endDate);
    }
  }

  /** A tenant resident for the whole period is billed for every day of it. */
  lemma WholePeriodTenant(t: Tenant, periodStart: Date, periodEnd: Date)
    requires periodStart <= periodEnd
    requires t.moveInDate <= periodStart
    requires IsCurrent(t) || periodEnd <= t.moveOutDate
    ensures BillFor(t, periodStart, periodEnd) == Some(Line(periodStart, periodEnd, periodEnd - periodStart + 1))
  {
  }

  /** A current tenant is never skipped and is billed up to the period end. */
  lemma CurrentTenantBilledToPeriodEnd(t: Tenant, periodStart: Date, periodEnd: Date)
    requires IsCurrent(t)
    ensures BillFor(t, periodStart, periodEnd).Some?
    ensures BillFor(t, periodStart, periodEnd).value.endDate == periodEnd
  {
  }

  /** The lines of all billed tenants, keyed by tenant id: what
      `findBillableTennantDays` puts in its result map. */
  function ExpectedBills(tenants: map<int, Tenant>, periodStart: Date, periodEnd: Date): map<int, Line>
  {
    map id | id in tenants && BillFor(tenants[id], periodStart, periodEnd).Some? ::
      BillFor(tenants[id], periodStart, periodEnd).value
  }

  /** Every tenant is stored under its own id, as the loader stores them. */
  predicate KeyedById(tenants: map<int, Tenant>)
  {
    forall id :: id in tenants ==> tenants[id].id == id
  }

  /** Taking one more tenant into account adds that tenant's line, if any,
      and changes no other line. */
  lemma ExpectedBillsInsert(tenants: map<int, Tenant>, id: int, t: Tenant, periodStart: Date, periodEnd: Date)
    requires id !in tenants
    ensures BillFor(t, periodStart, periodEnd).None? ==>
      ExpectedBills(tenants[id := t], periodStart, periodEnd) == ExpectedBills(tenants, periodStart, periodEnd)
    ensures BillFor(t, periodStart, periodEnd).Some? ==>
      ExpectedBills(tenants[id := t], periodStart, periodEnd) ==
        ExpectedBills(tenants, periodStart, periodEnd)[id := BillFor(t, periodStart, periodEnd).value]
  {
  }

  /** The result map holds exactly the tenants that were not skipped. */
  lemma ExpectedBillsKeys(tenants: map<int, Tenant>, periodStart: Date, periodEnd: Date, id: int)
    ensures id in ExpectedBills(tenants, periodStart, periodEnd) <==>
      id in tenants && !MovedOutBefore(tenants[id], periodStart)
  {
  }

  /** The day counts of a map of lines. */
  function DaysOf(lines: map<int, Line>): map<int, int>
  {
    map id | id in lines :: lines[id].tenantDays
  }

  /** The total of the day counts of a map of lines, in any order. */
  ghost function SumDays(lines: map<int, Line>): int
  {
    SumInts(DaysOf(lines))
  }

  /** Adding a line for a new tenant adds its day count to the total. */
  lemma SumDaysInsert(lines: map<int, Line>, id: int, l: Line)
    requires id !in lines
    ensures SumDays(lines[id := l]) == l.tenantDays + SumDays(lines)
  {
    assert DaysOf(lines[id := l]) == DaysOf(lines)[id := l.tenantDays];
    SumIntsInsert(DaysOf(lines), id, l.tenantDays);
  }

  /** A tenant who moved out before the period adds no line and no day. */
  lemma SkippedTenantAddsNothing(tenants: map<int, Tenant>, t: Tenant, periodStart: Date, periodEnd: Date)
    requires MovedOutBefore(t, periodStart)
    ensures ExpectedBills(tenants[t.id := t], periodStart, periodEnd) == ExpectedBills(tenants - {t.id}, periodStart, periodEnd)
    ensures SumDays(ExpectedBills(tenants[t.id := t], periodStart, periodEnd)) == SumDays(ExpectedBills(tenants - {t.id}, periodStart, periodEnd))
  {
    assert ExpectedBills(tenants[t.id := t], periodStart, periodEnd).Keys == ExpectedBills(tenants - {t.id}, periodStart, periodEnd).Keys;
  }

  // ---------------------------------------------------------------------------
  // The day count as written goes negative for a tenant whose residence does
  // not reach into the period from the other side: one who moves in after the
  // period ends is not skipped. The corrected line below bills only tenants
  // with at least one day in the period.

  /** The tenant's residence clipped to the billing period, or None when they
      share no day with it. */
  function OverlapBill(t: Tenant, periodStart: Date, periodEnd: Date): (r: Option<Line>)
    ensures r.None? <==> OverlapDays(t, periodStart, periodEnd) == {}
    ensures r.Some? ==> 1 <= r.value.tenantDays == |OverlapDays(t, periodStart, periodEnd)|
    ensures r.Some? ==> forall d :: Covers(r.value, d) <==> d in OverlapDays(t, periodStart, periodEnd)
  {
    var start := if t.moveInDate < periodStart then periodStart else t.moveInDate;
    var end := if IsCurrent(t) || periodEnd < t.moveOutDate then periodEnd else t.moveOutDate;
    DaysFromMembers(start, end);
    assert OverlapDays(t, periodStart, periodEnd) == DaysFrom(start, end);
    if start <= end then
      DaysFromSize(start, end);
      assert start in DaysFrom(start, end);
      Some(Line(start, end, end - start + 1))
    else
      None
  }

  /** Where the tenant shares a day with the period, the line as written is the
      corrected one; where they share none, the line as written is either
      absent or counts zero or fewer days. */
  lemma BillForAgreesWithOverlap(t: Tenant, periodStart: Date, periodEnd: Date)
    ensures OverlapDays(t, periodStart, periodEnd) != {} ==>
      BillFor(t, periodStart, periodEnd) == OverlapBill(t, periodStart, periodEnd)
    ensures OverlapDays(t, periodStart, periodEnd) == {} ==>
      BillFor(t, periodStart, periodEnd).None? || BillFor(t, periodStart, periodEnd).value.tenantDays <= 0
  {
    BillForIsOverlap(t, periodStart, periodEnd);
    if BillFor(t, periodStart, periodEnd).Some? {
      BillForCountsDays(t, periodStart, periodEnd);
      var l := BillFor(t, periodStart, periodEnd).value;
      if OverlapDays(t, periodStart, periodEnd) != {} {
        var r := OverlapBill(t, periodStart, periodEnd).value;
        var d :| d in OverlapDays(t, periodStart, periodEnd);
        assert Covers(l, d) && Covers(r, d);
        assert Covers(r, l.startDate) && Covers(r, l.endDate);
        assert Covers(l, r.startDate) && Covers(l, r.endDate);
      }
    }
  }

  /** The corrected result map: one line per tenant sharing a day with the period. */
  function OverlapBills(tenants: map<int, Tenant>, periodStart: Date, periodEnd: Date): map<int, Line>
  {
    map id | id in tenants && OverlapBill(tenants[id], periodStart, periodEnd).Some? ::
      OverlapBill(tenants[id], periodStart, periodEnd).value
  }

  /** The calculator as written and the corrected one produce the same map
      exactly when every line as written has at least one day. */
  lemma ExpectedBillsAgreeWithOverlap(tenants: map<int, Tenant>, periodStart: Date, periodEnd: Date)
    ensures ExpectedBills(tenants, periodStart, periodEnd) == OverlapBills(tenants, periodStart, periodEnd) <==>
      forall id :: id in ExpectedBills(tenants, periodStart, periodEnd) ==>
        ExpectedBills(tenants, periodStart, periodEnd)[id].tenantDays >= 1
  {
    var e, o := ExpectedBills(tenants, periodStart, periodEnd), OverlapBills(tenants, periodStart, periodEnd);
    forall id | id in tenants
      ensures OverlapDays(tenants[id], periodStart, periodEnd) != {} ==> BillFor(tenants[id], periodStart, periodEnd) == OverlapBill(tenants[id], periodStart, periodEnd)
      ensures OverlapDays(tenants[id], periodStart, periodEnd) == {} ==> BillFor(tenants[id], periodStart, periodEnd).None? || BillFor(tenants[id], periodStart, periodEnd).value.tenantDays <= 0
    {
      BillForAgreesWithOverlap(tenants[id], periodStart, periodEnd);
    }
    if forall id :: id in e ==> e[id].tenantDays >= 1 {
      forall id | id in e ensures id in o && o[id] == e[id] {
        assert OverlapDays(tenants[id], periodStart, periodEnd) != {};
      }
      forall id | id in o ensures id in e {
        assert OverlapDays(tenants[id], periodStart, periodEnd) != {};
      }
      assert e.Keys == o.Keys;
    }
  }

  /** Every corrected line has a positive count no larger than the total, so
      each tenant's share of the total lies between 0 and 1. */
  lemma OverlapBillsWithinTotal(tenants: map<int, Tenant>, periodStart: Date, periodEnd: Date, id: int)
    requires id in OverlapBills(tenants, periodStart, periodEnd)
    ensures 1 <= OverlapBills(tenants, periodStart, periodEnd)[id].tenantDays <= SumDays(OverlapBills(tenants, periodStart, periodEnd))
  {
    var o := OverlapBills(tenants, periodStart, periodEnd);
    SumIntsBoundsEntry(DaysOf(o), id);
  }
}
